=== FILE: README.md ===
# Smart-home attack detector — Dafny model

This project models the detection engine of `AttackDetector`, a smart-home
intrusion detector. Events (a name, the user's role, a user id, a source id,
a timestamp and a small context map) are routed by name to one of five
rules:

- **failed logins**: failures per source in a 60-second window; more than 5 alerts;
- **command spam**: device toggles per source in a 30-second window; more than
  10 alerts; ADMIN and MANAGER are exempt;
- **abnormal power**: the last 50 readings per device; a reading alerts when it
  is negative or above 1.5 times the mean of the window, which already
  includes it;
- **rapid temperature change**: changes per source, kept under the key
  `sourceId + "_temp"` in the same map as the toggle windows, in a 20-second
  window; more than 5 alerts;
- **unauthorized access**: a request for `security_camera` or `admin_panel` by
  any role other than ADMIN alerts; no state is kept.

Each alert is appended to an alert log.

The model is purely functional. `Detector.State` holds the three window maps
and the alert log. `Detector.Instrument` is one step of the engine, and
`Detector.Run` folds it over a stream of events. Each of the four windowed
rules is a function from its window map (and the event's fields) to a
`RuleResult`: the updated map and at most one alert. The access rule is
stateless: it takes only the event's fields and returns the optional alert.
Timestamps are whole seconds. A sample stamped `t` survives eviction at time `now` exactly when `now - t <= maxAge`, so a sample stamped
after the triggering event is kept, as in the Java code. Context entries are
optional fields with the code's defaults: `success` defaults to true, `value`
to 0.0 and `resource` to `""`.

Files:

- `options.dfy`: `Option` with `GetOr`.
- `windows.dfy`: time-bounded windows (`Evict`, `SlideTime`) and count-bounded
  windows (`PushBounded`), plus `Sum` and `Mean` and lemmas about them.
- `detector.dfy`: the data model, the five rules, the log append, the
  dispatcher, and single-step invariants.
- `properties.dfy`: stream-level properties and the demonstration run's
  scenarios, stated as lemmas.

## Model

| member | source | states |
|---|---|---|
| Windows.Evict | AttackDetector.java:48 | the surviving samples are exactly the recent ones, and never more than before |
| Windows.EvictIsSubsequence | AttackDetector.java:48 | eviction removes samples without reordering the survivors |
| Windows.EvictConcat | AttackDetector.java:48 | eviction is element-wise: evicting a concatenation concatenates the evictions |
| Windows.EvictKeepsNow | AttackDetector.java:47-48 | the sample just added at the reference time always survives, at the end |
| Windows.EvictIdempotent | AttackDetector.java:48 | evicting twice at the same time removes nothing more |
| Windows.EvictAllRecent | AttackDetector.java:48 | a window whose samples are all recent is left unchanged |
| Windows.SlideTime | AttackDetector.java:45-48 | only the keyed window changes (created if absent); it ends with `now`, holds exactly the recent old samples plus `now`, and grows by at most one |
| Windows.PushBounded | AttackDetector.java:70-71 | the new reading is last; below capacity it is appended; at capacity the oldest is dropped; the window never exceeds capacity |
| Windows.SumAppend | AttackDetector.java:73 | appending a reading adds it to the sum the average is taken over |
| Windows.SumDropFirst | AttackDetector.java:71-73 | dropping the oldest reading subtracts it from the sum |
| Windows.SumBounds | AttackDetector.java:73 | readings within [lo, hi] sum to between n·lo and n·hi |
| Windows.MeanBounds | AttackDetector.java:73 | the mean of a non-empty window lies within the readings' bounds |
| Windows.Mean | AttackDetector.java:73 | the average is 0 for an empty window and otherwise the value whose n-fold is the sum of the readings |
| Windows.MeanConstant | AttackDetector.java:73 | a window of identical readings has that reading as its mean |
| Detector.ClassifyRoundTrip | AttackDetector.java:21-39 | the five event names and the five kinds correspond one-to-one, and every other name is unrecognised |
| Detector.TimeRule | AttackDetector.java:45-86 | the shared body of the login rule (lines 45-51), the toggle rule (lines 57-63) and the temperature rule (lines 80-86): the key is created if absent and no other key changes; the window becomes the still-recent earlier samples followed by `now`, and holds exactly those samples; alert iff at least `limit` earlier samples are still recent |
| Detector.DetectFailedLogin | AttackDetector.java:42-53 | a successful or outcome-less login changes nothing; a failure leaves exactly the failures of the last 60 s plus its own, touches no other source, and alerts iff more than 5 remain |
| Detector.DetectCommandSpam | AttackDetector.java:55-64 | ADMIN and MANAGER toggles change nothing; others leave exactly the toggles of the last 30 s and alert iff more than 10 remain |
| Detector.DetectAbnormalPower | AttackDetector.java:66-77 | the reading becomes the window's last; the window keeps at most 50; only that device's window changes; alert iff the reading is negative or above 1.5 × the mean of the window including it |
| Detector.DetectSuspiciousTempControl | AttackDetector.java:79-87 | the window under `sourceId + "_temp"` keeps exactly the changes of the last 20 s; alert iff more than 5 remain; no role is exempt |
| Detector.DetectUnauthorizedAccess | AttackDetector.java:89-95 | alert iff a resource is given, it is `security_camera` or `admin_panel`, and the role is not ADMIN |
| Detector.LogAlert | AttackDetector.java:97-98 | the log gains exactly the rule's alert at its end, or nothing when there is none |
| Detector.LoginWindowsFrame | AttackDetector.java:21-39 | only a login attempt can change the failed-login windows |
| Detector.CommandWindowsFrame | AttackDetector.java:21-39 | only toggles and temperature changes can change the command-frequency map |
| Detector.PowerWindowsFrame | AttackDetector.java:21-39 | only a power reading can change the power windows |
| Detector.UnrecognizedEventChangesNothing | AttackDetector.java:37-38 | an event with any other name leaves the whole state unchanged |
| Detector.Instrument | AttackDetector.java:13-39 | one event appends at most one alert, at the end of the log, and keeps every earlier entry |
| Detector.PowerReadingKeepsBounded | AttackDetector.java:70-71 | a reading never pushes any power window past 50 |
| Detector.InstrumentKeepsValid | AttackDetector.java:21-39 | the bound of 50 readings per device is an invariant of every event |
| Detector.RunExtendsLog | AttackDetector.java:11 | over a stream the log is append-only, growing by at most one entry per event, and the power bound is kept |
| Properties.RunConcat | AttackDetector.java:13-40 | processing two streams in turn is processing their concatenation |
| Properties.StreamStaysRecent | AttackDetector.java:48 | samples of a stream spanning at most `maxAge` seconds are all recent when its last event arrives |
| Properties.WindowGrows | AttackDetector.java:47-48 | a window of recent samples grows by exactly the new sample |
| Properties.SuccessfulLoginChangesNothing | AttackDetector.java:43-44 | a successful login, or one without an outcome, leaves the whole state unchanged |
| Properties.SuccessfulLoginsChangeNothing | AttackDetector.java:43-44 | a stream of successful logins leaves the whole state unchanged |
| Properties.FailedLoginStep | AttackDetector.java:45-51 | a failure meeting only recent failures appends its timestamp and alerts iff the window already held 5 or more |
| Properties.FailedLoginWindow | AttackDetector.java:45-48 | failures from one source within 60 s fill its window with exactly their timestamps, in order |
| Properties.FailedLoginBurst | AttackDetector.java:45-51 | n failures within 60 s from a fresh source log exactly n − 5 burst alerts when n > 5, and none otherwise |
| Properties.FewFailedLoginsNeverAlert | AttackDetector.java:49-51 | at most 5 login attempts from a fresh source never alert, whatever their timestamps |
| Properties.PrivilegedToggleChangesNothing | AttackDetector.java:56 | an ADMIN or MANAGER toggle leaves the whole state unchanged |
| Properties.PrivilegedTogglesChangeNothing | AttackDetector.java:56 | a stream of privileged toggles leaves the whole state unchanged |
| Properties.CountedToggleStep | AttackDetector.java:57-63 | a counted toggle meeting only recent toggles appends its timestamp and alerts iff the window already held 10 or more |
| Properties.CommandSpamBurst | AttackDetector.java:57-63 | n counted toggles within 30 s fill the window with their timestamps and log exactly n − 10 spam alerts when n > 10 |
| Properties.TempChangeStep | AttackDetector.java:80-86 | a temperature change meeting only recent changes appends its timestamp and alerts iff the window already held 5 or more |
| Properties.RapidTempBurst | AttackDetector.java:80-86 | n changes within 20 s fill the "_temp" window with their timestamps and log exactly n − 5 alerts when n > 5 |
| Properties.TempKeyDiffers | AttackDetector.java:80 | a source's temperature key never equals the source id itself |
| Properties.TemperatureLeavesToggleWindow | AttackDetector.java:79-87 | a temperature change never touches its source's toggle window |
| Properties.ToggleLeavesTemperatureWindow | AttackDetector.java:55-64 | a toggle never touches its source's temperature window |
| Properties.ToggleCanReachTemperatureWindow | AttackDetector.java:57-60 | a counted toggle from a source named `x_temp` lands in the temperature window of `x` |
| Properties.SteadyPush | AttackDetector.java:70-74 | a steady non-negative reading keeps a steady window steady and below the spike threshold |
| Properties.SteadyReadingStep | AttackDetector.java:66-77 | one steady reading keeps the window steady, grows it up to 50, and logs nothing |
| Properties.SteadyPowerNeverAlerts | AttackDetector.java:66-77 | any stream of one steady non-negative reading never alerts and leaves min(k + n, 50) copies in the window |
| Properties.ThresholdWithOwnReading | AttackDetector.java:73-74 | comparing with the mean that includes the reading equals comparing v·(n − 0.5) with 1.5 × the sum of the others |
| Properties.PowerThresholdAgainstPriorReadings | AttackDetector.java:70-74 | below capacity a reading alerts iff it is negative or v·(n − 0.5) exceeds 1.5 × the sum of the n prior readings |
| Properties.FirstReadingAlertsOnlyWhenNegative | AttackDetector.java:70-74 | a device's first reading alerts iff it is negative |
| Properties.SelfInclusiveNeverStricter | AttackDetector.java:73-74 | for any non-empty readings u, a reading abnormal against the mean of u plus itself is abnormal against the mean of u |
| Properties.SelfInclusionIsLessSensitive | AttackDetector.java:70-74 | below capacity, every alert would also be raised against the mean of the readings already held |
| Properties.SelfInclusionAtCapacity | AttackDetector.java:70-74 | at capacity, every alert would also be raised against the mean of the 49 readings that stay in the window |
| Properties.AtCapacityCanBeStricter | AttackDetector.java:70-74 | at capacity an alert can fire that the full previous window's mean would not raise: after 1000.0 and 49 × 0.0, a reading of 15.0 alerts |
| Properties.MissingValueReadsAsZero | AttackDetector.java:67 | a power reading without a value behaves exactly as a reading of 0.0: 0.0 is appended, and it alerts iff the device's mean is negative |
| Properties.MissingResourceNeverAlerts | AttackDetector.java:90-92 | an access request without a resource changes nothing |
| Properties.AccessRequestIsStateless | AttackDetector.java:89-95 | an access request changes no window and appends an alert iff a non-ADMIN role asks for a protected resource |
| Properties.SuccessfulLoginsAreTransparent | AttackDetector.java:43-44 | successful logins inserted before an event change nothing that event finds or does |
| Properties.NormalLoginScenario | AttackDetector.java:117-121 | three failures from ip1 at the same instant log nothing |
| Properties.BruteForceScenario | AttackDetector.java:123-126 | six failures five seconds apart from ip2 log exactly one burst alert |
| Properties.SixthFailureScenario | AttackDetector.java:45-51 | five failures and a sixth within the minute log exactly one burst alert |
| Properties.SuccessesDoNotResetScenario | AttackDetector.java:43-51 | successful logins between the fifth and sixth failure neither reset the window nor prevent the alert |
| Properties.NormalToggleScenario | AttackDetector.java:128-131 | three toggles one second apart by USER log nothing |
| Properties.CommandSpamScenario | AttackDetector.java:133-136 | eleven toggles one second apart by USER log exactly one spam alert |
| Properties.PrivilegedSpamScenario | AttackDetector.java:56 | eleven privileged toggles leave the detector in its initial state |
| Properties.RapidTempScenario | AttackDetector.java:144-147 | six changes three seconds apart log exactly one temperature alert |
| Properties.SteadyFiftyScenario | AttackDetector.java:138-141 | any number of readings of 100.0 on a fresh device log nothing |
| Properties.SteadyFiftyFillsWindow | AttackDetector.java:138-141 | fifty or more readings of 100.0 leave a window of exactly fifty 100.0s |
| Properties.SpikeAfterSteady | AttackDetector.java:142 | against a full window of 100.0, a reading of 200.0 alerts, because the mean including it is 102.0 |
| Properties.PowerSpikeScenario | AttackDetector.java:138-142 | fifty readings of 100.0 then 200.0 log exactly one power alert; a fifty-first 100.0 logs none |
| Properties.AccessFromFreshState | AttackDetector.java:89-95 | one access request on a fresh detector logs exactly the alert its role and resource call for |
| Properties.UnauthorizedAccessScenario | AttackDetector.java:149-150 | USER asking for the camera and MANAGER asking for the admin panel are reported; ADMIN is not |

## Behaviour the model keeps

The model follows the code where a plain reading of the rules might expect otherwise:

- Repeated alerts: the code logs one alert for EVERY event that finds the window over its limit. A plain description of these rules says a burst yields "exactly one" alert; that holds only for the first event past the limit (six failures, eleven toggles, six changes), as the scenarios show (Properties.FailedLoginBurst, Properties.CommandSpamBurst, Properties.RapidTempBurst).
- Shared key space: temperature keys share one map with toggle keys. Temperature windows are not a separate namespace: a toggle from a source literally named `x_temp` feeds `x`'s temperature window (Properties.ToggleCanReachTemperatureWindow).
- Self-inclusive mean: the code judges a reading against a mean that already includes it. Below capacity this is never stricter than comparing against the readings already held (Properties.SelfInclusionIsLessSensitive). At capacity the oldest reading is dropped first, so it is never stricter only relative to the 49 readings that stay (Properties.SelfInclusionAtCapacity); relative to the full previous window it can be stricter (Properties.AtCapacityCanBeStricter). No corrected variant is modelled, because the intended behaviour is not evident from the code.

## Left out

- Console output (`logEvent`, the `System.out` line of `logAlert`, `showAlerts`) is not modelled; it does not affect the state.
- Alert text and the `Instant.now()` prefix of each log entry are replaced by the structured `Alert` datatype. It carries the source, device or user id, and the reading for power alerts.
- Timestamps are whole seconds (`int`). The sub-second truncation of `Duration.toSeconds()` is not modelled.
- Power readings are `real`, so double-precision behaviour is not modelled: rounding in the mean and in `1.5 * avg`, non-finite readings, and overflow of the sum near `Double.MAX_VALUE`. Its effect in Java depends on the sign. A NaN reading, a `+Infinity` reading, or a sum overflowing towards `+Infinity` makes `avg` NaN or `+Infinity`; then `value > 1.5 * avg` is false for every reading, which silences the spike test for that device until the offending reading leaves the window, up to 50 readings later (negative readings still alert through `value < 0`). A `-Infinity` reading, or a sum overflowing towards `-Infinity`, makes `avg` `-Infinity`; then `value > 1.5 * avg` holds for every finite reading, so every reading of that device alerts while the offending reading stays in the window. The model alerts by exact arithmetic in all these cases.
- The unchecked casts of context values (`(boolean)`, `(double)`, `(String)`) cannot fail here, because the context fields are typed. A value of the wrong type, which throws `ClassCastException` in Java, is not modelled.
- Null inputs are not modelled. In Java a null event name (the `switch` at line 21), a null role (lines 56 and 92), a null context map (lines 43, 67 and 90), a null source or device id (the `putIfAbsent` calls at lines 45, 57, 68 and 80), or a context entry mapped to null (unboxed at lines 43 and 67, dereferenced at lines 90-91) throws `NullPointerException`; the model's fields cannot be null.
- Concurrency is not modelled. The `ConcurrentHashMap` fields and the unsynchronised `ArrayList`s are replaced by a single immutable state threaded through `Run`.
- The `main` harness (lines 114-153) is not modelled as a program; its sequences are restated as the `*Scenario` lemmas. The 500 ms sleeps do not matter, because the harness passes the same `now` to each of the three normal logins.

=== FILE: detector.dfy ===
/** The attack-detection engine: five rule evaluators over per-source sliding
    windows, an append-only alert log, and the `Instrument` step that routes
    one event, by its name, to the rule it concerns. */
module Detector {
  import opened Options
  import opened Windows

  // ---------------------------------------------------------------------------
  // Rule parameters
  // ---------------------------------------------------------------------------

  /** Failed logins are counted over 60 seconds; more than 5 is a burst. */
  const LoginWindow: nat := 60
  const LoginLimit: nat := 5

  /** Device toggles are counted over 30 seconds; more than 10 is spam. */
  const SpamWindow: nat := 30
  const SpamLimit: nat := 10

  /** Temperature changes are counted over 20 seconds; more than 5 is suspicious. */
  const TempWindow: nat := 20
  const TempLimit: nat := 5

  /** At most 50 power readings are kept per device. */
  const MaxReadings: nat := 50

  /** A reading above this multiple of the device's mean is abnormal. */
  const SpikeFactor: real := 1.5

  /** Roles whose device toggles are never counted. */
  predicate Privileged(role: string)
  {
    role == "ADMIN" || role == "MANAGER"
  }

  /** Resources that only the ADMIN role may request. */
  predicate ProtectedResource(resource: string)
  {
    resource == "security_camera" || resource == "admin_panel"
  }

  /** Temperature windows share the command-frequency map with toggle
      windows, under the source id followed by "_temp". */
  function TempKey(sourceId: string): string
  {
    sourceId + "_temp"
  }

  // ---------------------------------------------------------------------------
  // Data model
  // ---------------------------------------------------------------------------

  /** One alert per rule, carrying the identity the rule reports. */
  datatype Alert =
    | LoginBurst(sourceId: string)
    | DeviceSpam(sourceId: string)
    | AbnormalPower(deviceId: string, value: real)
    | RapidTempChange(sourceId: string)
    | UnauthorizedAccess(userId: string)

  /** The optional context fields an event may carry. */
  datatype Context = Context(success: Option<bool>, value: Option<real>, resource: Option<string>)
  {
    /** A login counts as successful unless the context says otherwise. */
    predicate Succeeded()
    {
      success.GetOr(true)
    }

    /** A power reading without a value reads as 0. */
    function Reading(): real
    {
      value.GetOr(0.0)
    }

    /** An access request without a resource asks for the empty resource. */
    function Requested(): string
    {
      resource.GetOr("")
    }
  }

  /** An incoming event; `timestamp` is in whole seconds. */
  datatype Event = Event(
    name: string,
    role: string,
    userId: string,
    sourceId: string,
    timestamp: int,
    context: Context)

  /** The engine's state: three window maps and the alert log.
      `commandFrequency` holds both toggle windows and temperature windows. */
  datatype State = State(
    loginFailures: map<string, seq<int>>,
    commandFrequency: map<string, seq<int>>,
    powerReadings: map<string, seq<real>>,
    alertLog: seq<Alert>)

  const Init := State(map[], map[], map[], [])

  /** No window of `m` holds more than MaxReadings readings. */
  predicate Bounded(m: map<string, seq<real>>)
  {
    forall k :: k in m ==> |m[k]| <= MaxReadings
  }

  /** No power window has grown past its capacity. */
  predicate Valid(s: State)
  {
    Bounded(s.powerReadings)
  }

  /** What a rule leaves behind: its updated window map and at most one alert. */
  datatype RuleResult<T> = RuleResult(windows: map<string, seq<T>>, alert: Option<Alert>)

  /** The event names the dispatcher recognises. */
  datatype EventKind =
    | LoginAttempt
    | ToggleDevice
    | PowerReading
    | TemperatureChange
    | AccessRequest
    | Unrecognized

  function KindName(k: EventKind): string
  {
    match k
    case LoginAttempt => "login_attempt"
    case ToggleDevice => "toggle_device"
    case PowerReading => "power_reading"
    case TemperatureChange => "temperature_change"
    case AccessRequest => "unauthorized_access"
    case Unrecognized => ""
  }

  function Classify(name: string): EventKind
  {
    if name == "login_attempt" then LoginAttempt
    else if name == "toggle_device" then ToggleDevice
    else if name == "power_reading" then PowerReading
    else if name == "temperature_change" then TemperatureChange
    else if name == "unauthorized_access" then AccessRequest
    else Unrecognized
  }

  /** Classification and naming are inverse on the recognised kinds, and
      every name outside the five is unrecognised. */
  lemma ClassifyRoundTrip(k: EventKind, name: string)
    ensures k != Unrecognized ==> Classify(KindName(k)) == k
    ensures Classify(name) != Unrecognized ==> KindName(Classify(name)) == name
    ensures Classify(name) == Unrecognized <==>
      forall j: EventKind :: j != Unrecognized ==> KindName(j) != name
  {
    if Classify(name) == Unrecognized {
      forall j: EventKind | j != Unrecognized
        ensures KindName(j) != name
      {
      }
    } else {
      assert KindName(Classify(name)) == name;
    }
  }

  // ---------------------------------------------------------------------------
  // Rules
  // ---------------------------------------------------------------------------

  /** Shared shape of the three time-window rules: slide the window under
      `key` to `now`, and alert when more than `limit` samples remain, that is,
      when at least `limit` earlier samples are still recent. */
  function TimeRule(m: map<string, seq<int>>, key: string, now: int, maxAge: nat, limit: nat, alert: Alert): (r: RuleResult<int>)
    ensures r.windows.Keys == m.Keys + {key}
    ensures forall k :: k in m && k != key ==> r.windows[k] == m[k]
    ensures r.windows[key] == Evict(Lookup(m, key), now, maxAge) + [now]
    ensures forall t :: t in r.windows[key] <==> (t in Lookup(m, key) || t == now) && Recent(t, now, maxAge)
    ensures r.alert.Some? <==> |Evict(Lookup(m, key), now, maxAge)| >= limit
    ensures r.alert.Some? ==> r.alert.value == alert
  {
    EvictKeepsNow(Lookup(m, key), now, maxAge);
    var windows := SlideTime(m, key, now, maxAge);
    RuleResult(windows, if |windows[key]| > limit then Some(alert) else None)
  }

  /** A failed login is appended to the source's 60-second window; more than
      5 failures left in it raise an alert. A successful login, or one whose
      outcome is missing, changes nothing. */
  function DetectFailedLogin(m: map<string, seq<int>>, sourceId: string, ts: int, ctx: Context): (r: RuleResult<int>)
    ensures ctx.Succeeded() ==> r == RuleResult(m, None)
    ensures !ctx.Succeeded() ==> r.windows.Keys == m.Keys + {sourceId}
    ensures forall k :: k in m && k != sourceId ==> r.windows[k] == m[k]
    ensures !ctx.Succeeded() ==> r.windows[sourceId] == Evict(Lookup(m, sourceId) + [ts], ts, LoginWindow)
    ensures !ctx.Succeeded() ==>
      forall t :: t in r.windows[sourceId] <==> (t in Lookup(m, sourceId) || t == ts) && ts - t <= 60
    ensures r.alert.Some? <==> !ctx.Succeeded() && |r.windows[sourceId]| > 5
    ensures r.alert.Some? ==> r.alert.value == LoginBurst(sourceId)
  {
    if ctx.Succeeded() then RuleResult(m, None)
    else TimeRule(m, sourceId, ts, LoginWindow, LoginLimit, LoginBurst(sourceId))
  }

  /** A toggle from a non-privileged role is appended to the source's
      30-second window; more than 10 toggles left in it raise an alert.
      Toggles by ADMIN or MANAGER change nothing. */
  function DetectCommandSpam(m: map<string, seq<int>>, sourceId: string, ts: int, role: string): (r: RuleResult<int>)
    ensures Privileged(role) ==> r == RuleResult(m, None)
    ensures !Privileged(role) ==> r.windows.Keys == m.Keys + {sourceId}
    ensures forall k :: k in m && k != sourceId ==> r.windows[k] == m[k]
    ensures !Privileged(role) ==> r.windows[sourceId] == Evict(Lookup(m, sourceId) + [ts], ts, SpamWindow)
    ensures !Privileged(role) ==>
      forall t :: t in r.windows[sourceId] <==> (t in Lookup(m, sourceId) || t == ts) && ts - t <= 30
    ensures r.alert.Some? <==> !Privileged(role) && |r.windows[sourceId]| > 10
    ensures r.alert.Some? ==> r.alert.value == DeviceSpam(sourceId)
  {
    if Privileged(role) then RuleResult(m, None)
    else TimeRule(m, sourceId, ts, SpamWindow, SpamLimit, DeviceSpam(sourceId))
  }

  /** Every temperature change, whatever the role, is appended to the
      20-second window under the source's "_temp" key; more than 5 changes
      left in it raise an alert. */
  function DetectSuspiciousTempControl(m: map<string, seq<int>>, sourceId: string, ts: int): (r: RuleResult<int>)
    ensures r.windows.Keys == m.Keys + {TempKey(sourceId)}
    ensures forall k :: k in m && k != TempKey(sourceId) ==> r.windows[k] == m[k]
    ensures r.windows[TempKey(sourceId)] == Evict(Lookup(m, TempKey(sourceId)) + [ts], ts, TempWindow)
    ensures forall t :: t in r.windows[TempKey(sourceId)] <==>
      (t in Lookup(m, TempKey(sourceId)) || t == ts) && ts - t <= 20
    ensures r.alert.Some? <==> |r.windows[TempKey(sourceId)]| > 5
    ensures r.alert.Some? ==> r.alert.value == RapidTempChange(sourceId)
  {
    TimeRule(m, TempKey(sourceId), ts, TempWindow, TempLimit, RapidTempChange(sourceId))
  }

  /** A reading is abnormal when it is negative or exceeds 1.5 times the mean
      of `readings`. */
  predicate Abnormal(value: real, readings: seq<real>)
  {
    value < 0.0 || value > SpikeFactor * Mean(readings)
  }

  /** A reading is appended to the device's window, which keeps its 50 most
      recent readings. The reading is abnormal when negative or above 1.5
      times the mean of the window that already contains it. */
  function DetectAbnormalPower(m: map<string, seq<real>>, deviceId: string, ctx: Context): (r: RuleResult<real>)
    ensures r.windows.Keys == m.Keys + {deviceId}
    ensures forall k :: k in m && k != deviceId ==> r.windows[k] == m[k]
    ensures var w := r.windows[deviceId];
      |w| > 0 && w[|w| - 1] == ctx.Reading()
    ensures |Lookup(m, deviceId)| < 50 ==> r.windows[deviceId] == Lookup(m, deviceId) + [ctx.Reading()]
    ensures |Lookup(m, deviceId)| >= 50 ==> r.windows[deviceId] == Lookup(m, deviceId)[1..] + [ctx.Reading()]
    ensures |Lookup(m, deviceId)| <= 50 ==> |r.windows[deviceId]| <= 50
    ensures r.alert.Some? <==> Abnormal(ctx.Reading(), r.windows[deviceId])
    ensures r.alert.Some? ==> r.alert.value == AbnormalPower(deviceId, ctx.Reading())
  {
    var value := ctx.Reading();
    var readings := PushBounded(Lookup(m, deviceId), value, MaxReadings);
    RuleResult(m[deviceId := readings], if Abnormal(value, readings) then Some(AbnormalPower(deviceId, value)) else None)
  }

  /** A request for a protected resource by any role other than ADMIN raises
      an alert naming the user; a request without a resource never does. */
  function DetectUnauthorizedAccess(userId: string, role: string, ctx: Context): (r: Option<Alert>)
    ensures r.Some? <==>
      ctx.resource.Some? && (ctx.resource.value == "security_camera" || ctx.resource.value == "admin_panel")
      && role != "ADMIN"
    ensures r.Some? ==> r.value == UnauthorizedAccess(userId)
  {
    if ProtectedResource(ctx.Requested()) && role != "ADMIN" then Some(UnauthorizedAccess(userId)) else None
  }

  // ---------------------------------------------------------------------------
  // Alert log and dispatch
  // ---------------------------------------------------------------------------

  /** `after` is `before` with at most one entry appended at the end. */
  predicate AppendsAtMostOne(before: seq<Alert>, after: seq<Alert>)
  {
    |before| <= |after| <= |before| + 1 && after[..|before|] == before
  }

  /** Records a rule's optional alert at the end of the log. */
  function LogAlert(log: seq<Alert>, alert: Option<Alert>): (r: seq<Alert>)
    ensures AppendsAtMostOne(log, r)
    ensures |r| == |log| + 1 <==> alert.Some?
    ensures alert.Some? ==> r[|log|] == alert.value
  {
    if alert.Some? then log + [alert.value] else log
  }

  /** Routes one event to the rule its name selects; the alert log gains at
      most one entry, at its end. */
  function Instrument(s: State, e: Event): (r: State)
    ensures AppendsAtMostOne(s.alertLog, r.alertLog)
  {
    match Classify(e.name)
    case LoginAttempt =>
      var res := DetectFailedLogin(s.loginFailures, e.sourceId, e.timestamp, e.context);
      s.(loginFailures := res.windows, alertLog := LogAlert(s.alertLog, res.alert))
    case ToggleDevice =>
      var res := DetectCommandSpam(s.commandFrequency, e.sourceId, e.timestamp, e.role);
      s.(commandFrequency := res.windows, alertLog := LogAlert(s.alertLog, res.alert))
    case PowerReading =>
      var res := DetectAbnormalPower(s.powerReadings, e.sourceId, e.context);
      s.(powerReadings := res.windows, alertLog := LogAlert(s.alertLog, res.alert))
    case TemperatureChange =>
      var res := DetectSuspiciousTempControl(s.commandFrequency, e.sourceId, e.timestamp);
      s.(commandFrequency := res.windows, alertLog := LogAlert(s.alertLog, res.alert))
    case AccessRequest =>
      s.(alertLog := LogAlert(s.alertLog, DetectUnauthorizedAccess(e.userId, e.role, e.context)))
    case Unrecognized =>
      s
  }

  /** Feeds a sequence of events, in order, through `Instrument`. */
  function Run(s: State, es: seq<Event>): State
    decreases |es|
  {
    if |es| == 0 then s
    else Instrument(Run(s, es[..|es| - 1]), es[|es| - 1])
  }

  /** Only a login attempt can change the failed-login windows. */
  lemma LoginWindowsFrame(s: State, e: Event)
    requires Classify(e.name) != LoginAttempt
    ensures Instrument(s, e).loginFailures == s.loginFailures
  {
  }

  /** Only a toggle or a temperature change can change the command-frequency map. */
  lemma CommandWindowsFrame(s: State, e: Event)
    requires Classify(e.name) != ToggleDevice && Classify(e.name) != TemperatureChange
    ensures Instrument(s, e).commandFrequency == s.commandFrequency
  {
  }

  /** Only a power reading can change the power windows. */
  lemma PowerWindowsFrame(s: State, e: Event)
    requires Classify(e.name) != PowerReading
    ensures Instrument(s, e).powerReadings == s.powerReadings
  {
  }

  /** An event whose name is none of the five changes nothing. */
  lemma UnrecognizedEventChangesNothing(s: State, e: Event)
    requires Classify(e.name) == Unrecognized
    ensures Instrument(s, e) == s
  {
  }

  /** A power reading never pushes a device's window past 50 readings. */
  lemma PowerReadingKeepsBounded(m: map<string, seq<real>>, deviceId: string, ctx: Context)
    requires Bounded(m)
    ensures Bounded(DetectAbnormalPower(m, deviceId, ctx).windows)
  {
  }

  /** No power window outgrows its capacity. */
  lemma InstrumentKeepsValid(s: State, e: Event)
    requires Valid(s)
    ensures Valid(Instrument(s, e))
  {
    if Classify(e.name) == PowerReading {
      var res := DetectAbnormalPower(s.powerReadings, e.sourceId, e.context);
      PowerReadingKeepsBounded(s.powerReadings, e.sourceId, e.context);
      assert Instrument(s, e).powerReadings == res.windows;
    } else {
      PowerWindowsFrame(s, e);
    }
  }

  /** Over a stream the log only grows, by at most one entry per event, and
      entries already recorded stay as they were; validity is kept. */
  lemma {:induction false} RunExtendsLog(s: State, es: seq<Event>)
    ensures |s.alertLog| <= |Run(s, es).alertLog| <= |s.alertLog| + |es|
    ensures Run(s, es).alertLog[..|s.alertLog|] == s.alertLog
    ensures Valid(s) ==> Valid(Run(s, es))
    decreases |es|
  {
    if |es| > 0 {
      var p := es[..|es| - 1];
      RunExtendsLog(s, p);
      if Valid(s) {
        InstrumentKeepsValid(Run(s, p), es[|es| - 1]);
      }
      var mid := Run(s, p).alertLog;
      assert Run(s, es).alertLog[..|mid|] == mid;
      assert mid[..|s.alertLog|] == s.alertLog;
    }
  }
}

=== FILE: options.dfy ===
/** An optional value: how a missing field of an event's context is represented. */
module Options {

  datatype Option<T> = None | Some(value: T) {

    /** The carried value, or `default` when there is none. */
    function GetOr(default: T): T
    {
      match this
      case Some(v) => v
      case None => default
    }
  }
}

=== FILE: properties.dfy ===
/** Properties of the detection engine over single events and event streams,
    and the example scenarios of the program's own demonstration run. */
module Properties {
  import opened Options
  import opened Windows
  import opened Detector

  // ---------------------------------------------------------------------------
  // Event streams
  // ---------------------------------------------------------------------------

  /** Feeding two streams one after the other is feeding their concatenation. */
  lemma {:induction false} RunConcat(s: State, a: seq<Event>, b: seq<Event>)
    ensures Run(s, a + b) == Run(Run(s, a), b)
    decreases |b|
  {
    if |b| == 0 {
      assert a + b == a;
    } else {
      assert (a + b)[..|a + b| - 1] == a + b[..|b| - 1];
      RunConcat(s, a, b[..|b| - 1]);
    }
  }

  /** The window holds exactly the stream's timestamps, in order. */
  predicate Matches(w: seq<int>, es: seq<Event>)
  {
    |w| == |es| && forall i :: 0 <= i < |es| ==> w[i] == es[i].timestamp
  }

  /** No event of the stream is more than `span` seconds later than an
      earlier one. */
  predicate WithinSpan(es: seq<Event>, span: int)
  {
    forall i, j :: 0 <= i < j < |es| ==> es[j].timestamp - es[i].timestamp <= span
  }

  /** How many of `n` consecutive samples find more than `limit` in the window. */
  function Excess(n: nat, limit: nat): nat
  {
    if n > limit then n - limit else 0
  }

  /** `n` copies of one alert. */
  function Repeat(a: Alert, n: nat): seq<Alert>
  {
    if n == 0 then [] else Repeat(a, n - 1) + [a]
  }

  /** One more sample adds one more copy exactly when it finds the window
      already at the limit. */
  lemma RepeatExcess(a: Alert, n: nat, limit: nat)
    ensures Repeat(a, Excess(n + 1, limit)) == Repeat(a, Excess(n, limit)) + (if n >= limit then [a] else [])
  {
  }

  /** A log holding `n` samples' worth of alerts gains the copy the next
      sample adds. */
  lemma LogGrows(base: seq<Alert>, mid: seq<Alert>, next: seq<Alert>, a: Alert, n: nat, limit: nat)
    requires mid == base + Repeat(a, Excess(n, limit))
    requires next == mid + (if n >= limit then [a] else [])
    ensures next == base + Repeat(a, Excess(n + 1, limit))
  {
    RepeatExcess(a, n, limit);
  }

  /** Everything a stream has put into a window is still recent when the
      stream's last event arrives. */
  lemma StreamStaysRecent(es: seq<Event>, w: seq<int>, maxAge: nat)
    requires |es| > 0 && Matches(w, es[..|es| - 1]) && WithinSpan(es, maxAge)
    ensures forall i :: 0 <= i < |w| ==> Recent(w[i], es[|es| - 1].timestamp, maxAge)
    ensures Matches(w + [es[|es| - 1].timestamp], es)
  {
    forall i | 0 <= i < |w|
      ensures Recent(w[i], es[|es| - 1].timestamp, maxAge)
    {
      assert w[i] == es[i].timestamp;
    }
  }

  /** A window whose samples are all recent grows by exactly the new sample. */
  lemma WindowGrows(w: seq<int>, now: int, maxAge: nat)
    requires forall i :: 0 <= i < |w| ==> Recent(w[i], now, maxAge)
    ensures Evict(w + [now], now, maxAge) == w + [now]
  {
    EvictAllRecent(w + [now], now, maxAge);
  }

  // ---------------------------------------------------------------------------
  // Failed logins
  // ---------------------------------------------------------------------------

  predicate FailedLoginFrom(e: Event, src: string)
  {
    Classify(e.name) == LoginAttempt && e.sourceId == src && !e.context.Succeeded()
  }

  /** A successful login, or one without an outcome, changes nothing. */
  lemma SuccessfulLoginChangesNothing(s: State, e: Event)
    requires Classify(e.name) == LoginAttempt && e.context.Succeeded()
    ensures Instrument(s, e) == s
  {
  }

  /** Successful logins are inert over a whole stream: they leave every window
      and the alert log exactly as they were. */
  lemma {:induction false} SuccessfulLoginsChangeNothing(s: State, es: seq<Event>)
    requires forall i :: 0 <= i < |es| ==> Classify(es[i].name) == LoginAttempt && es[i].context.Succeeded()
    ensures Run(s, es) == s
    decreases |es|
  {
    if |es| > 0 {
      SuccessfulLoginsChangeNothing(s, es[..|es| - 1]);
      SuccessfulLoginChangesNothing(s, es[|es| - 1]);
    }
  }

  /** A failed login that finds only recent failures in its source's window
      appends its timestamp to it, and alerts iff that makes more than five. */
  lemma FailedLoginStep(s: State, e: Event, src: string)
    requires FailedLoginFrom(e, src)
    requires forall i :: 0 <= i < |Lookup(s.loginFailures, src)| ==>
      Recent(Lookup(s.loginFailures, src)[i], e.timestamp, LoginWindow)
    ensures Lookup(Instrument(s, e).loginFailures, src) == Lookup(s.loginFailures, src) + [e.timestamp]
    ensures Instrument(s, e).alertLog ==
      s.alertLog + (if |Lookup(s.loginFailures, src)| >= LoginLimit then [LoginBurst(src)] else [])
  {
    WindowGrows(Lookup(s.loginFailures, src), e.timestamp, LoginWindow);
  }

  /** Failed logins from one source, starting from an empty window and all
      within 60 seconds of each other, fill the window with exactly their
      timestamps, in order. */
  lemma {:induction false} FailedLoginWindow(s: State, es: seq<Event>, src: string)
    requires Lookup(s.loginFailures, src) == []
    requires forall i :: 0 <= i < |es| ==> FailedLoginFrom(es[i], src)
    requires WithinSpan(es, LoginWindow)
    ensures Matches(Lookup(Run(s, es).loginFailures, src), es)
    decreases |es|
  {
    if |es| > 0 {
      var p := es[..|es| - 1];
      FailedLoginWindow(s, p, src);
      assert Run(s, es) == Instrument(Run(s, p), es[|es| - 1]);
      StreamStaysRecent(es, Lookup(Run(s, p).loginFailures, src), LoginWindow);
      FailedLoginStep(Run(s, p), es[|es| - 1], src);
    }
  }

  /** Under the same conditions, every failure from the sixth on raises one
      burst alert, and nothing else is logged. */
  lemma {:induction false} FailedLoginBurst(s: State, es: seq<Event>, src: string)
    requires Lookup(s.loginFailures, src) == []
    requires forall i :: 0 <= i < |es| ==> FailedLoginFrom(es[i], src)
    requires WithinSpan(es, LoginWindow)
    ensures Run(s, es).alertLog == s.alertLog + Repeat(LoginBurst(src), Excess(|es|, LoginLimit))
    decreases |es|
  {
    if |es| > 0 {
      var p := es[..|es| - 1];
      FailedLoginBurst(s, p, src);
      FailedLoginWindow(s, p, src);
      assert Run(s, es) == Instrument(Run(s, p), es[|es| - 1]);
      StreamStaysRecent(es, Lookup(Run(s, p).loginFailures, src), LoginWindow);
      FailedLoginStep(Run(s, p), es[|es| - 1], src);
      LogGrows(s.alertLog, Run(s, p).alertLog, Run(s, es).alertLog, LoginBurst(src), |p|, LoginLimit);
    } else {
      assert s.alertLog + [] == s.alertLog;
    }
  }

  /** However their timestamps fall, at most five failed logins from a fresh
      source never raise an alert. */
  lemma {:induction false} FewFailedLoginsNeverAlert(s: State, es: seq<Event>, src: string)
    requires Lookup(s.loginFailures, src) == []
    requires forall i :: 0 <= i < |es| ==> Classify(es[i].name) == LoginAttempt && es[i].sourceId == src
    requires |es| <= LoginLimit
    ensures |Lookup(Run(s, es).loginFailures, src)| <= |es|
    ensures Run(s, es).alertLog == s.alertLog
    decreases |es|
  {
    if |es| > 0 {
      FewFailedLoginsNeverAlert(s, es[..|es| - 1], src);
    }
  }

  // ---------------------------------------------------------------------------
  // Device toggles
  // ---------------------------------------------------------------------------

  predicate CountedToggleFrom(e: Event, src: string)
  {
    Classify(e.name) == ToggleDevice && e.sourceId == src && !Privileged(e.role)
  }

  /** A toggle by ADMIN or MANAGER changes nothing. */
  lemma PrivilegedToggleChangesNothing(s: State, e: Event)
    requires Classify(e.name) == ToggleDevice && Privileged(e.role)
    ensures Instrument(s, e) == s
  {
  }

  /** Privileged toggles are inert over a whole stream: they leave every
      window and the alert log exactly as they were. */
  lemma {:induction false} PrivilegedTogglesChangeNothing(s: State, es: seq<Event>)
    requires forall i :: 0 <= i < |es| ==> Classify(es[i].name) == ToggleDevice && Privileged(es[i].role)
    ensures Run(s, es) == s
    decreases |es|
  {
    if |es| > 0 {
      PrivilegedTogglesChangeNothing(s, es[..|es| - 1]);
      PrivilegedToggleChangesNothing(s, es[|es| - 1]);
    }
  }

  /** A counted toggle that finds only recent toggles in its source's window
      appends its timestamp to it, and alerts iff that makes more than ten. */
  lemma CountedToggleStep(s: State, e: Event, src: string)
    requires CountedToggleFrom(e, src)
    requires forall i :: 0 <= i < |Lookup(s.commandFrequency, src)| ==>
      Recent(Lookup(s.commandFrequency, src)[i], e.timestamp, SpamWindow)
    ensures Lookup(Instrument(s, e).commandFrequency, src) == Lookup(s.commandFrequency, src) + [e.timestamp]
    ensures Instrument(s, e).alertLog ==
      s.alertLog + (if |Lookup(s.commandFrequency, src)| >= SpamLimit then [DeviceSpam(src)] else [])
  {
    WindowGrows(Lookup(s.commandFrequency, src), e.timestamp, SpamWindow);
  }

  /** Counted toggles for one source, starting from an empty window and all
      within 30 seconds of each other, fill the window with exactly their
      timestamps; every toggle from the eleventh on raises one spam alert. */
  lemma {:induction false} CommandSpamBurst(s: State, es: seq<Event>, src: string)
    requires Lookup(s.commandFrequency, src) == []
    requires forall i :: 0 <= i < |es| ==> CountedToggleFrom(es[i], src)
    requires WithinSpan(es, SpamWindow)
    ensures Matches(Lookup(Run(s, es).commandFrequency, src), es)
    ensures Run(s, es).alertLog == s.alertLog + Repeat(DeviceSpam(src), Excess(|es|, SpamLimit))
    decreases |es|
  {
    if |es| > 0 {
      var p := es[..|es| - 1];
      CommandSpamBurst(s, p, src);
      assert Run(s, es) == Instrument(Run(s, p), es[|es| - 1]);
      StreamStaysRecent(es, Lookup(Run(s, p).commandFrequency, src), SpamWindow);
      CountedToggleStep(Run(s, p), es[|es| - 1], src);
      LogGrows(s.alertLog, Run(s, p).alertLog, Run(s, es).alertLog, DeviceSpam(src), |p|, SpamLimit);
    } else {
      assert s.alertLog + [] == s.alertLog;
    }
  }

  // ---------------------------------------------------------------------------
  // Temperature changes
  // ---------------------------------------------------------------------------

  predicate TempChangeFrom(e: Event, src: string)
  {
    Classify(e.name) == TemperatureChange && e.sourceId == src
  }

  /** A temperature change that finds only recent changes in its source's
      "_temp" window appends its timestamp to it, and alerts iff that makes
      more than five. */
  lemma TempChangeStep(s: State, e: Event, src: string)
    requires TempChangeFrom(e, src)
    requires forall i :: 0 <= i < |Lookup(s.commandFrequency, TempKey(src))| ==>
      Recent(Lookup(s.commandFrequency, TempKey(src))[i], e.timestamp, TempWindow)
    ensures Lookup(Instrument(s, e).commandFrequency, TempKey(src)) ==
      Lookup(s.commandFrequency, TempKey(src)) + [e.timestamp]
    ensures Instrument(s, e).alertLog ==
      s.alertLog + (if |Lookup(s.commandFrequency, TempKey(src))| >= TempLimit then [RapidTempChange(src)] else [])
  {
    WindowGrows(Lookup(s.commandFrequency, TempKey(src)), e.timestamp, TempWindow);
  }

  /** Temperature changes for one source, starting from an empty window and
      all within 20 seconds of each other, fill the "_temp" window with exactly
      their timestamps; every change from the sixth on raises one alert. */
  lemma {:induction false} RapidTempBurst(s: State, es: seq<Event>, src: string)
    requires Lookup(s.commandFrequency, TempKey(src)) == []
    requires forall i :: 0 <= i < |es| ==> TempChangeFrom(es[i], src)
    requires WithinSpan(es, TempWindow)
    ensures Matches(Lookup(Run(s, es).commandFrequency, TempKey(src)), es)
    ensures Run(s, es).alertLog == s.alertLog + Repeat(RapidTempChange(src), Excess(|es|, TempLimit))
    decreases |es|
  {
    if |es| > 0 {
      var p := es[..|es| - 1];
      RapidTempBurst(s, p, src);
      assert Run(s, es) == Instrument(Run(s, p), es[|es| - 1]);
      StreamStaysRecent(es, Lookup(Run(s, p).commandFrequency, TempKey(src)), TempWindow);
      TempChangeStep(Run(s, p), es[|es| - 1], src);
      LogGrows(s.alertLog, Run(s, p).alertLog, Run(s, es).alertLog, RapidTempChange(src), |p|, TempLimit);
    } else {
      assert s.alertLog + [] == s.alertLog;
    }
  }

  lemma TempKeyDiffers(src: string)
    ensures TempKey(src) != src
  {
    assert |TempKey(src)| == |src| + 5;
  }

  /** A temperature change for a source never touches that source's toggle window. */
  lemma TemperatureLeavesToggleWindow(s: State, e: Event)
    requires Classify(e.name) == TemperatureChange
    ensures Lookup(Instrument(s, e).commandFrequency, e.sourceId) == Lookup(s.commandFrequency, e.sourceId)
  {
    TempKeyDiffers(e.sourceId);
  }

  /** A toggle for a source never touches that source's temperature window. */
  lemma ToggleLeavesTemperatureWindow(s: State, e: Event)
    requires Classify(e.name) == ToggleDevice
    ensures Lookup(Instrument(s, e).commandFrequency, TempKey(e.sourceId)) ==
      Lookup(s.commandFrequency, TempKey(e.sourceId))
  {
    TempKeyDiffers(e.sourceId);
  }

  /** The two kinds of window share one map, so a counted toggle from a source
      whose id is another source's id followed by "_temp" lands in that other
      source's temperature window. */
  lemma ToggleCanReachTemperatureWindow(s: State, e: Event, src: string)
    requires CountedToggleFrom(e, TempKey(src))
    ensures e.timestamp in Lookup(Instrument(s, e).commandFrequency, TempKey(src))
    ensures Lookup(s.commandFrequency, TempKey(src)) == [] ==>
      Lookup(Instrument(s, e).commandFrequency, TempKey(src)) == [e.timestamp]
  {
    if Lookup(s.commandFrequency, TempKey(src)) == [] {
      var w := Lookup(Instrument(s, e).commandFrequency, TempKey(src));
      assert [] + [e.timestamp] == [e.timestamp];
      assert w == Evict([e.timestamp], e.timestamp, SpamWindow);
      assert [e.timestamp][1..] == [];
    }
  }

  // ---------------------------------------------------------------------------
  // Power readings
  // ---------------------------------------------------------------------------

  predicate ReadingFrom(e: Event, dev: string, v: real)
  {
    Classify(e.name) == PowerReading && e.sourceId == dev && e.context.Reading() == v
  }

  function Min(a: int, b: int): int
  {
    if a <= b then a else b
  }

  /** Every reading in `w` equals `v`. */
  predicate Steady(w: seq<real>, v: real)
  {
    forall i :: 0 <= i < |w| ==> w[i] == v
  }

  /** Pushing a steady non-negative reading onto a window already steady at
      it keeps the window steady, grows it up to 50 readings, and leaves the
      reading below the spike threshold. */
  lemma SteadyPush(w: seq<real>, v: real)
    requires v >= 0.0 && |w| <= MaxReadings && Steady(w, v)
    ensures Steady(PushBounded(w, v, MaxReadings), v)
    ensures |PushBounded(w, v, MaxReadings)| == Min(|w| + 1, MaxReadings)
    ensures !Abnormal(v, PushBounded(w, v, MaxReadings))
  {
    var w' := PushBounded(w, v, MaxReadings);
    forall i | 0 <= i < |w'|
      ensures w'[i] == v
    {
      assert w'[i] == (w + [v])[|w| + 1 - |w'| + i];
    }
    MeanConstant(w', v);
  }

  /** One more steady non-negative reading keeps the window steady, grows it
      up to 50 readings, and raises no alert. */
  lemma SteadyReadingStep(s: State, e: Event, dev: string, v: real)
    requires v >= 0.0 && ReadingFrom(e, dev, v)
    requires |Lookup(s.powerReadings, dev)| <= MaxReadings && Steady(Lookup(s.powerReadings, dev), v)
    ensures Instrument(s, e).alertLog == s.alertLog
    ensures |Lookup(Instrument(s, e).powerReadings, dev)| == Min(|Lookup(s.powerReadings, dev)| + 1, MaxReadings)
    ensures Steady(Lookup(Instrument(s, e).powerReadings, dev), v)
  {
    var w := Lookup(s.powerReadings, dev);
    SteadyPush(w, v);
    assert Lookup(Instrument(s, e).powerReadings, dev) == PushBounded(w, v, MaxReadings);
  }

  /** A steady non-negative reading never alerts: starting from a window that
      holds only that reading, a stream of it keeps the window steady, grows
      it up to 50 readings, and leaves the alert log as it was. */
  lemma {:induction false} SteadyPowerNeverAlerts(s: State, es: seq<Event>, dev: string, v: real)
    requires v >= 0.0
    requires |Lookup(s.powerReadings, dev)| <= MaxReadings && Steady(Lookup(s.powerReadings, dev), v)
    requires forall i :: 0 <= i < |es| ==> ReadingFrom(es[i], dev, v)
    ensures Run(s, es).alertLog == s.alertLog
    ensures |Lookup(Run(s, es).powerReadings, dev)| == Min(|Lookup(s.powerReadings, dev)| + |es|, MaxReadings)
    ensures Steady(Lookup(Run(s, es).powerReadings, dev), v)
    decreases |es|
  {
    if |es| > 0 {
      var p := es[..|es| - 1];
      SteadyPowerNeverAlerts(s, p, dev, v);
      assert Run(s, es) == Instrument(Run(s, p), es[|es| - 1]);
      SteadyReadingStep(Run(s, p), es[|es| - 1], dev, v);
    }
  }

  /** A power reading without a value is handled exactly as a reading of
      0.0: it is appended as 0.0 and alerts only if the device's mean, with
      it included, is negative. */
  lemma MissingValueReadsAsZero(s: State, e: Event)
    requires Classify(e.name) == PowerReading && e.context.value.None?
    ensures Instrument(s, e) == Instrument(s, e.(context := e.context.(value := Some(0.0))))
    ensures var w := Lookup(Instrument(s, e).powerReadings, e.sourceId);
      |w| > 0 && w[|w| - 1] == 0.0 &&
      (|Instrument(s, e).alertLog| == |s.alertLog| + 1 <==> Mean(w) < 0.0)
  {
    assert Lookup(Instrument(s, e).powerReadings, e.sourceId) ==
      DetectAbnormalPower(s.powerReadings, e.sourceId, e.context).windows[e.sourceId];
  }

  /** The comparison against a mean over n + 1 readings that includes `v`,
      restated against the sum `total` of the other n. */
  lemma ThresholdWithOwnReading(total: real, v: real, n: nat)
    ensures v > 1.5 * ((total + v) / (n as real + 1.0)) <==> v * (n as real - 0.5) > 1.5 * total
  {
    var k := n as real + 1.0;
    var mean := (total + v) / k;
    assert mean * k == total + v;
    assert v > 1.5 * mean <==> v * k > 1.5 * mean * k;
  }

  /** Because the mean includes the reading being judged, a reading that does
      not overflow the window alerts exactly when it is negative or, scaled by
      (n - 0.5) for the n readings already held, exceeds 1.5 times their sum. */
  lemma PowerThresholdAgainstPriorReadings(m: map<string, seq<real>>, dev: string, ctx: Context)
    requires |Lookup(m, dev)| < MaxReadings
    ensures DetectAbnormalPower(m, dev, ctx).alert.Some? <==>
      ctx.Reading() < 0.0 ||
      ctx.Reading() * (|Lookup(m, dev)| as real - 0.5) > 1.5 * Sum(Lookup(m, dev))
  {
    var w, v := Lookup(m, dev), ctx.Reading();
    SumAppend(w, v);
    assert Mean(w + [v]) == (Sum(w) + v) / (|w| as real + 1.0);
    ThresholdWithOwnReading(Sum(w), v, |w|);
  }

  /** The first reading a device ever reports alerts only when it is negative. */
  lemma FirstReadingAlertsOnlyWhenNegative(m: map<string, seq<real>>, dev: string, ctx: Context)
    requires dev !in m
    ensures DetectAbnormalPower(m, dev, ctx).alert.Some? <==> ctx.Reading() < 0.0
  {
    PowerThresholdAgainstPriorReadings(m, dev, ctx);
  }

  /** Judging `v` against a mean that already includes it is never stricter
      than judging it against the readings `u` it joins. */
  lemma SelfInclusiveNeverStricter(u: seq<real>, v: real)
    requires |u| > 0
    ensures Abnormal(v, u + [v]) ==> Abnormal(v, u)
  {
    if Abnormal(v, u + [v]) && v >= 0.0 {
      var k := |u| as real;
      SumAppend(u, v);
      assert Mean(u + [v]) == (Sum(u) + v) / (k + 1.0);
      ThresholdWithOwnReading(Sum(u), v, |u|);
      assert v * k > 1.5 * Sum(u);
      assert v * k > (1.5 * Mean(u)) * k;
    }
  }

  /** Below capacity, every alert raised against the mean that includes the
      reading would also be raised against the mean of the readings already
      held. */
  lemma SelfInclusionIsLessSensitive(m: map<string, seq<real>>, dev: string, ctx: Context)
    requires 0 < |Lookup(m, dev)| < MaxReadings
    ensures DetectAbnormalPower(m, dev, ctx).alert.Some? ==> Abnormal(ctx.Reading(), Lookup(m, dev))
  {
    SelfInclusiveNeverStricter(Lookup(m, dev), ctx.Reading());
  }

  /** At capacity the same holds only against the 49 readings that stay in the
      window, not against the full window the reading arrived at. */
  lemma SelfInclusionAtCapacity(m: map<string, seq<real>>, dev: string, ctx: Context)
    requires |Lookup(m, dev)| >= MaxReadings
    ensures DetectAbnormalPower(m, dev, ctx).alert.Some? ==> Abnormal(ctx.Reading(), Lookup(m, dev)[1..])
  {
    SelfInclusiveNeverStricter(Lookup(m, dev)[1..], ctx.Reading());
  }

  /** At capacity, dropping the oldest reading can make the rule stricter than
      the full window's mean: after a reading of 1000.0 and 49 of 0.0, a
      reading of 15.0 alerts (the new window's mean is 0.3) although it is
      below 1.5 times the mean (20.0) of the window it arrived at. */
  lemma AtCapacityCanBeStricter()
    ensures var w := [1000.0] + seq(49, _ => 0.0);
      var ctx := Context(None, Some(15.0), None);
      DetectAbnormalPower(map["meter" := w], "meter", ctx).alert.Some? && !Abnormal(15.0, w)
  {
    var zeros := seq(49, _ => 0.0);
    var w := [1000.0] + zeros;
    MeanConstant(zeros, 0.0);
    SumDropFirst(w);
    assert w[1..] == zeros;
    assert Mean(w) == 20.0;
    SumAppend(zeros, 15.0);
    assert Mean(zeros + [15.0]) == 15.0 / 50.0;
    assert Lookup(map["meter" := w], "meter") == w;
  }

  // ---------------------------------------------------------------------------
  // Access requests
  // ---------------------------------------------------------------------------

  /** An access request changes no window; it appends an alert exactly when
      a role other than ADMIN asks for a protected resource, so MANAGER is not
      exempt and a request without a resource never alerts. */
  lemma AccessRequestIsStateless(s: State, e: Event)
    requires Classify(e.name) == AccessRequest
    ensures Instrument(s, e).(alertLog := s.alertLog) == s
    ensures |Instrument(s, e).alertLog| == |s.alertLog| + 1 <==>
      e.context.resource.Some? && ProtectedResource(e.context.resource.value) && e.role != "ADMIN"
  {
  }

  /** An access request without a resource asks for the empty resource,
      which is not protected, so it changes nothing at all. */
  lemma MissingResourceNeverAlerts(s: State, e: Event)
    requires Classify(e.name) == AccessRequest && e.context.resource.None?
    ensures Instrument(s, e) == s
  {
  }

  // ---------------------------------------------------------------------------
  // Scenarios of the demonstration run
  // ---------------------------------------------------------------------------

  function LoginEvent(src: string, ts: int, ok: bool): Event
  {
    Event("login_attempt", "USER", "u1", src, ts, Context(Some(ok), None, None))
  }

  function ToggleEvent(role: string, src: string, ts: int): Event
  {
    Event("toggle_device", role, "u2", src, ts, Context(None, None, None))
  }

  function PowerEvent(dev: string, ts: int, v: real): Event
  {
    Event("power_reading", "USER", "u3", dev, ts, Context(None, Some(v), None))
  }

  function TempEvent(src: string, ts: int): Event
  {
    Event("temperature_change", "USER", "u4", src, ts, Context(None, None, None))
  }

  lemma RunOne(s: State, e: Event)
    ensures Run(s, [e]) == Instrument(s, e)
  {
    assert [e][..0] == [];
  }

  lemma RunAppendOne(s: State, es: seq<Event>, e: Event)
    ensures Run(s, es + [e]) == Instrument(Run(s, es), e)
  {
    assert (es + [e])[..|es|] == es;
  }

  /** Three failed logins from a fresh source, all at the same instant,
      raise nothing. */
  lemma NormalLoginScenario(t0: int)
    ensures Run(Init, seq(3, i => LoginEvent("ip1", t0, false))).alertLog == []
  {
    assert Classify("login_attempt") == LoginAttempt;
    var normal := seq(3, i => LoginEvent("ip1", t0, false));
    assert forall i :: 0 <= i < |normal| ==> normal[i] == LoginEvent("ip1", t0, false);
    FewFailedLoginsNeverAlert(Init, normal, "ip1");
  }

  /** Six failed logins five seconds apart raise exactly one burst alert. */
  lemma BruteForceScenario(t0: int)
    ensures Run(Init, seq(6, i => LoginEvent("ip2", t0 + 5 * i, false))).alertLog == [LoginBurst("ip2")]
  {
    assert Classify("login_attempt") == LoginAttempt;
    var attack := seq(6, i => LoginEvent("ip2", t0 + 5 * i, false));
    assert forall i :: 0 <= i < |attack| ==> attack[i] == LoginEvent("ip2", t0 + 5 * i, false);
    FailedLoginBurst(Init, attack, "ip2");
  }

  /** Successful logins slipped in before an event do not change what that
      event finds or does. */
  lemma SuccessfulLoginsAreTransparent(s: State, before: seq<Event>, successes: seq<Event>, e: Event)
    requires forall i :: 0 <= i < |successes| ==>
      Classify(successes[i].name) == LoginAttempt && successes[i].context.Succeeded()
    ensures Run(s, before + successes + [e]) == Run(s, before + [e])
  {
    RunAppendOne(s, before + successes, e);
    RunConcat(s, before, successes);
    SuccessfulLoginsChangeNothing(Run(s, before), successes);
    RunAppendOne(s, before, e);
  }

  /** Five failures one second apart and a sixth ten seconds after the first
      raise exactly one burst alert. */
  lemma SixthFailureScenario(t0: int)
    ensures Run(Init, seq(5, i => LoginEvent("ip3", t0 + i, false)) + [LoginEvent("ip3", t0 + 10, false)]).alertLog
      == [LoginBurst("ip3")]
  {
    assert Classify("login_attempt") == LoginAttempt;
    var fails := seq(5, i => LoginEvent("ip3", t0 + i, false));
    var last := LoginEvent("ip3", t0 + 10, false);
    var all := fails + [last];
    forall i | 0 <= i < |all|
      ensures FailedLoginFrom(all[i], "ip3") && t0 <= all[i].timestamp <= t0 + 10
    {
      if i < |fails| {
        assert all[i] == fails[i] == LoginEvent("ip3", t0 + i, false);
      } else {
        assert all[i] == last;
      }
    }
    FailedLoginBurst(Init, all, "ip3");
    assert Repeat(LoginBurst("ip3"), 1) == [LoginBurst("ip3")];
  }

  /** Five failures, any number of successful logins, then a sixth failure
      within the minute: the successes neither reset nor fill the window, so
      the sixth failure raises the burst alert. */
  lemma SuccessesDoNotResetScenario(t0: int, successes: seq<Event>)
    requires forall i :: 0 <= i < |successes| ==>
      Classify(successes[i].name) == LoginAttempt && successes[i].context.Succeeded()
    ensures Run(Init, seq(5, i => LoginEvent("ip3", t0 + i, false)) + successes + [LoginEvent("ip3", t0 + 10, false)]).alertLog
      == [LoginBurst("ip3")]
  {
    SuccessfulLoginsAreTransparent(Init, seq(5, i => LoginEvent("ip3", t0 + i, false)), successes, LoginEvent("ip3", t0 + 10, false));
    SixthFailureScenario(t0);
  }

  /** Three toggles one second apart by an ordinary user raise nothing. */
  lemma NormalToggleScenario(t0: int)
    ensures Run(Init, seq(3, i => ToggleEvent("USER", "dev1", t0 + i))).alertLog == []
  {
    assert Classify("toggle_device") == ToggleDevice;
    var normal := seq(3, i => ToggleEvent("USER", "dev1", t0 + i));
    assert forall i :: 0 <= i < |normal| ==> normal[i] == ToggleEvent("USER", "dev1", t0 + i);
    CommandSpamBurst(Init, normal, "dev1");
  }

  /** Eleven toggles one second apart by an ordinary user raise exactly one
      spam alert. */
  lemma CommandSpamScenario(t0: int)
    ensures Run(Init, seq(11, i => ToggleEvent("USER", "dev2", t0 + i))).alertLog == [DeviceSpam("dev2")]
  {
    assert Classify("toggle_device") == ToggleDevice;
    var spam := seq(11, i => ToggleEvent("USER", "dev2", t0 + i));
    assert forall i :: 0 <= i < |spam| ==> spam[i] == ToggleEvent("USER", "dev2", t0 + i);
    CommandSpamBurst(Init, spam, "dev2");
  }

  /** The same eleven toggles by ADMIN or MANAGER raise nothing and leave
      every window empty. */
  lemma PrivilegedSpamScenario(t0: int, role: string)
    requires Privileged(role)
    ensures Run(Init, seq(11, i => ToggleEvent(role, "dev2", t0 + i))) == Init
  {
    assert Classify("toggle_device") == ToggleDevice;
    var es := seq(11, i => ToggleEvent(role, "dev2", t0 + i));
    assert forall i :: 0 <= i < |es| ==> es[i] == ToggleEvent(role, "dev2", t0 + i);
    PrivilegedTogglesChangeNothing(Init, es);
  }

  /** Six temperature changes three seconds apart raise exactly one alert. */
  lemma RapidTempScenario(t0: int)
    ensures Run(Init, seq(6, i => TempEvent("thermo1", t0 + 3 * i))).alertLog == [RapidTempChange("thermo1")]
  {
    assert Classify("temperature_change") == TemperatureChange;
    var es := seq(6, i => TempEvent("thermo1", t0 + 3 * i));
    assert forall i :: 0 <= i < |es| ==> es[i] == TempEvent("thermo1", t0 + 3 * i);
    RapidTempBurst(Init, es, "thermo1");
  }

  /** Any number of readings of 100.0 on a fresh device raise nothing. */
  lemma SteadyFiftyScenario(t0: int, n: nat)
    ensures Run(Init, seq(n, _ => PowerEvent("powerDev", t0, 100.0))).alertLog == []
  {
    assert Classify("power_reading") == PowerReading;
    var es := seq(n, _ => PowerEvent("powerDev", t0, 100.0));
    assert forall i :: 0 <= i < |es| ==> es[i] == PowerEvent("powerDev", t0, 100.0);
    SteadyPowerNeverAlerts(Init, es, "powerDev", 100.0);
  }

  /** Fifty or more readings of 100.0 leave exactly fifty of them in the
      device's window. */
  lemma SteadyFiftyFillsWindow(t0: int, n: nat)
    requires n >= MaxReadings
    ensures Lookup(Run(Init, seq(n, _ => PowerEvent("powerDev", t0, 100.0))).powerReadings, "powerDev") == seq(MaxReadings, _ => 100.0)
  {
    assert Classify("power_reading") == PowerReading;
    var es := seq(n, _ => PowerEvent("powerDev", t0, 100.0));
    assert forall i :: 0 <= i < |es| ==> es[i] == PowerEvent("powerDev", t0, 100.0);
    SteadyPowerNeverAlerts(Init, es, "powerDev", 100.0);
  }

  /** Against a full window of 100.0, a reading of 200.0 exceeds 1.5 times the
      mean (102.0) of the window that includes it, and alerts. */
  lemma SpikeAfterSteady(s: State, e: Event)
    requires e == PowerEvent("powerDev", e.timestamp, 200.0)
    requires Lookup(s.powerReadings, "powerDev") == seq(MaxReadings, _ => 100.0)
    ensures Instrument(s, e).alertLog == s.alertLog + [AbnormalPower("powerDev", 200.0)]
  {
    assert Classify("power_reading") == PowerReading;
    var w := Lookup(s.powerReadings, "powerDev");
    var rest := w[1..];
    assert Lookup(Instrument(s, e).powerReadings, "powerDev") == rest + [200.0];
    MeanConstant(rest, 100.0);
    SumAppend(rest, 200.0);
    assert Mean(rest + [200.0]) == 5100.0 / 50.0;
  }

  /** Fifty readings of 100.0 then one of 200.0 raise exactly one alert; a
      fifty-first reading of 100.0 instead raises none. */
  lemma PowerSpikeScenario(t0: int)
    ensures Run(Init, seq(50, _ => PowerEvent("powerDev", t0, 100.0)) + [PowerEvent("powerDev", t0, 200.0)]).alertLog
      == [AbnormalPower("powerDev", 200.0)]
    ensures Run(Init, seq(51, _ => PowerEvent("powerDev", t0, 100.0))).alertLog == []
  {
    var steady := seq(50, _ => PowerEvent("powerDev", t0, 100.0));
    var spike := PowerEvent("powerDev", t0, 200.0);
    SteadyFiftyScenario(t0, 50);
    SteadyFiftyFillsWindow(t0, 50);
    SteadyFiftyScenario(t0, 51);
    RunAppendOne(Init, steady, spike);
    SpikeAfterSteady(Run(Init, steady), spike);
  }

  /** A single access request on a fresh detector logs exactly the alert
      its role and resource call for. */
  lemma AccessFromFreshState(e: Event)
    requires Classify(e.name) == AccessRequest
    ensures Run(Init, [e]).alertLog ==
      if e.context.resource.Some? && ProtectedResource(e.context.resource.value) && e.role != "ADMIN"
      then [UnauthorizedAccess(e.userId)] else []
  {
    RunOne(Init, e);
  }

  /** An ordinary user asking for the security camera is reported; MANAGER
      asking for the admin panel is reported too; ADMIN is not. */
  lemma UnauthorizedAccessScenario()
    ensures Run(Init, [Event("unauthorized_access", "USER", "u5", "ipX", 0, Context(None, None, Some("security_camera")))]).alertLog
      == [UnauthorizedAccess("u5")]
    ensures Run(Init, [Event("unauthorized_access", "MANAGER", "u6", "ipY", 0, Context(None, None, Some("admin_panel")))]).alertLog
      == [UnauthorizedAccess("u6")]
    ensures Run(Init, [Event("unauthorized_access", "ADMIN", "u7", "ipZ", 0, Context(None, None, Some("admin_panel")))]).alertLog
      == []
  {
    assert Classify("unauthorized_access") == AccessRequest;
    assert ProtectedResource("security_camera") && ProtectedResource("admin_panel");
    assert "USER" != "ADMIN" && "MANAGER" != "ADMIN";
    AccessFromFreshState(Event("unauthorized_access", "USER", "u5", "ipX", 0, Context(None, None, Some("security_camera"))));
    AccessFromFreshState(Event("unauthorized_access", "MANAGER", "u6", "ipY", 0, Context(None, None, Some("admin_panel"))));
    AccessFromFreshState(Event("unauthorized_access", "ADMIN", "u7", "ipZ", 0, Context(None, None, Some("admin_panel"))));
  }
}

=== FILE: windows.dfy ===
/** Sliding windows kept per source key.

    Two kinds exist: time-bounded windows of event timestamps (whole seconds),
    from which samples older than a maximum age are evicted relative to the
    timestamp of the triggering event, and count-bounded windows of numeric
    readings, which drop their oldest reading once they grow past a capacity. */
module Windows {

  /** The window stored under `key`; a key never written reads as the empty window. */
  function Lookup<T>(m: map<string, seq<T>>, key: string): seq<T>
  {
    if key in m then m[key] else []
  }

  // ---------------------------------------------------------------------------
  // Time-bounded windows
  // ---------------------------------------------------------------------------

  /** A sample stamped `t` is still inside a window of `maxAge` seconds at
      reference time `now`. A sample stamped after `now` has a negative age and
      is always inside. */
  predicate Recent(t: int, now: int, maxAge: int)
  {
    now - t <= maxAge
  }

  /** Drops every sample older than `maxAge` seconds at time `now`. */
  function Evict(w: seq<int>, now: int, maxAge: int): (r: seq<int>)
    ensures |r| <= |w|
    ensures forall t :: t in r <==> t in w && Recent(t, now, maxAge)
  {
    if |w| == 0 then []
    else if Recent(w[0], now, maxAge) then [w[0]] + Evict(w[1..], now, maxAge)
    else Evict(w[1..], now, maxAge)
  }

  /** `a` can be obtained from `b` by deleting elements: the elements of `a`
      appear in `b` in the same relative order. */
  ghost predicate IsSubsequence<T>(a: seq<T>, b: seq<T>)
    decreases |b|
  {
    if |a| == 0 then true
    else if |b| == 0 then false
    else (a[0] == b[0] && IsSubsequence(a[1..], b[1..])) || IsSubsequence(a, b[1..])
  }

  /** Eviction never reorders: the survivors are a subsequence of the window. */
  lemma {:induction false} EvictIsSubsequence(w: seq<int>, now: int, maxAge: int)
    ensures IsSubsequence(Evict(w, now, maxAge), w)
    decreases |w|
  {
    if |w| > 0 {
      EvictIsSubsequence(w[1..], now, maxAge);
      var r := Evict(w, now, maxAge);
      if Recent(w[0], now, maxAge) {
        assert r[0] == w[0] && r[1..] == Evict(w[1..], now, maxAge);
      }
    }
  }

  /** Eviction works element by element: evicting a concatenation is
      concatenating the evictions, which also shows survivors keep their order. */
  lemma {:induction false} EvictConcat(a: seq<int>, b: seq<int>, now: int, maxAge: int)
    ensures Evict(a + b, now, maxAge) == Evict(a, now, maxAge) + Evict(b, now, maxAge)
    decreases |a|
  {
    if |a| == 0 {
      assert a + b == b;
    } else {
      assert (a + b)[0] == a[0];
      assert (a + b)[1..] == a[1..] + b;
      EvictConcat(a[1..], b, now, maxAge);
    }
  }

  /** The sample just appended at the reference time itself always survives,
      and the older samples are filtered exactly as they would be without it. */
  lemma EvictKeepsNow(w: seq<int>, now: int, maxAge: nat)
    ensures Evict(w + [now], now, maxAge) == Evict(w, now, maxAge) + [now]
  {
    EvictConcat(w, [now], now, maxAge);
    assert [now][1..] == [];
  }

  /** Evicting twice at the same reference time removes nothing more. */
  lemma {:induction false} EvictIdempotent(w: seq<int>, now: int, maxAge: int)
    ensures Evict(Evict(w, now, maxAge), now, maxAge) == Evict(w, now, maxAge)
    decreases |w|
  {
    if |w| > 0 {
      EvictIdempotent(w[1..], now, maxAge);
      if Recent(w[0], now, maxAge) {
        var r := Evict(w, now, maxAge);
        assert r[0] == w[0] && r[1..] == Evict(w[1..], now, maxAge);
      }
    }
  }

  /** A window whose samples are all recent is left exactly as it is. */
  lemma {:induction false} EvictAllRecent(w: seq<int>, now: int, maxAge: int)
    requires forall i :: 0 <= i < |w| ==> Recent(w[i], now, maxAge)
    ensures Evict(w, now, maxAge) == w
    decreases |w|
  {
    if |w| > 0 {
      EvictAllRecent(w[1..], now, maxAge);
      assert [w[0]] + w[1..] == w;
    }
  }

  /** Appends `now` to the window under `key` (creating it when absent) and
      then evicts from that window every sample older than `maxAge` seconds. */
  function SlideTime(m: map<string, seq<int>>, key: string, now: int, maxAge: nat): (r: map<string, seq<int>>)
    ensures r.Keys == m.Keys + {key}
    ensures forall k :: k in m && k != key ==> r[k] == m[k]
    ensures forall t :: t in r[key] <==> (t in Lookup(m, key) || t == now) && Recent(t, now, maxAge)
    ensures |r[key]| > 0 && r[key][|r[key]| - 1] == now
    ensures |r[key]| <= |Lookup(m, key)| + 1
  {
    EvictKeepsNow(Lookup(m, key), now, maxAge);
    m[key := Evict(Lookup(m, key) + [now], now, maxAge)]
  }

  // ---------------------------------------------------------------------------
  // Count-bounded windows
  // ---------------------------------------------------------------------------

  /** Appends `v`, then removes the single oldest reading if the window now
      holds more than `cap` readings. */
  function PushBounded(w: seq<real>, v: real, cap: nat): (r: seq<real>)
    requires cap > 0
    ensures |r| > 0 && r[|r| - 1] == v
    ensures |r| <= |w| + 1 && r == (w + [v])[|w| + 1 - |r|..]
    ensures |w| < cap ==> r == w + [v]
    ensures |w| >= cap ==> r == w[1..] + [v]
    ensures |w| <= cap ==> |r| <= cap
  {
    var grown := w + [v];
    if |grown| > cap then grown[1..] else grown
  }

  /** Sum of a sequence of readings, peeling off the newest reading first. */
  function Sum(s: seq<real>): real
  {
    if |s| == 0 then 0.0 else Sum(s[..|s| - 1]) + s[|s| - 1]
  }

  /** Arithmetic mean of the readings; 0 for an empty window. */
  function Mean(s: seq<real>): (r: real)
    ensures |s| == 0 ==> r == 0.0
    ensures |s| > 0 ==> r * (|s| as real) == Sum(s)
  {
    if |s| == 0 then 0.0 else Sum(s) / (|s| as real)
  }

  /** Appending a reading adds it to the sum. */
  lemma SumAppend(s: seq<real>, v: real)
    ensures Sum(s + [v]) == Sum(s) + v
  {
    assert (s + [v])[..|s|] == s;
  }

  /** Dropping the oldest reading subtracts it from the sum. */
  lemma {:induction false} SumDropFirst(s: seq<real>)
    requires |s| > 0
    ensures Sum(s) == s[0] + Sum(s[1..])
    decreases |s|
  {
    if |s| > 1 {
      var init := s[..|s| - 1];
      SumDropFirst(init);
      assert init[1..] == s[1..][..|s| - 2];
      assert init[0] == s[0];
    } else {
      assert s[..0] == [] && s[1..] == [];
    }
  }

  /** A sum of readings lying in [lo, hi] lies between |s|·lo and |s|·hi. */
  lemma {:induction false} SumBounds(s: seq<real>, lo: real, hi: real)
    requires forall i :: 0 <= i < |s| ==> lo <= s[i] <= hi
    ensures (|s| as real) * lo <= Sum(s) <= (|s| as real) * hi
    decreases |s|
  {
    if |s| > 0 {
      var init := s[..|s| - 1];
      assert forall i :: 0 <= i < |init| ==> init[i] == s[i];
      SumBounds(init, lo, hi);
      assert (|s| as real) * lo == (|init| as real) * lo + lo;
      assert (|s| as real) * hi == (|init| as real) * hi + hi;
    }
  }

  /** The mean of a non-empty window lies between its lower and upper bounds. */
  lemma MeanBounds(s: seq<real>, lo: real, hi: real)
    requires |s| > 0
    requires forall i :: 0 <= i < |s| ==> lo <= s[i] <= hi
    ensures lo <= Mean(s) <= hi
  {
    SumBounds(s, lo, hi);
    var n := |s| as real;
    assert Sum(s) / n * n == Sum(s);
  }

  /** A window of identical readings has that reading as its mean and |s| times it as its sum. */
  lemma MeanConstant(s: seq<real>, v: real)
    requires |s| > 0
    requires forall i :: 0 <= i < |s| ==> s[i] == v
    ensures Sum(s) == (|s| as real) * v
    ensures Mean(s) == v
  {
    SumBounds(s, v, v);
    MeanBounds(s, v, v);
  }
}
